=== FILE: README.md ===
# sss — Super Simple Stocks, modelled in Dafny

This project models the core of `sss/model.py`. Besides its two exception classes, `StockError` and `ValidationError`, that module defines two main classes:

- **`Stock`**: a configuration of symbol, stock type, last dividend, fixed dividend percentage and par value, each validated at construction, plus a decay window (15 minutes by default) that is stored without a check. A stock also holds a time-ordered ledger of trades:
  - its method `record_trade` validates a trade against the ledger and appends it;
  - it derives market metrics from the ledger: the volume-weighted stock price over the trades of the last `decay` seconds, the dividend yield and the P/E ratio.
- **`StockManager`**: a registry of stocks keyed by symbol. It computes the all-share index, which is the geometric mean of the prices of the stocks that have one.

Modules, one per concern of the source:

| file | module | models |
|---|---|---|
| `wrappers.dfy` | `Wrappers` | `Option` and `Result`, standing for `None` and for raised exceptions |
| `validation.dfy` | `Validation` | the per-field failures, their messages, and `'\n'.join` / `split('\n')` |
| `ledger.dfy` | `Ledger` | trades, eviction of old trades, quantity and value sums, the weighted average |
| `stocks.dfy` | `Stocks` | `Stock` construction (`_validate`), the fixed-dividend accessors, `record_trade` (`_validate_trade`) |
| `metrics.dfy` | `Metrics` | `stock_price`, `dividend_yield`, `pe_ratio` |
| `geomean.dfy` | `GeometricMean` | the product of a family of prices, natural powers, the all-share index in exact form |
| `manager.dfy` | `Manager` | `add_stock`, `get_stock`, `all_share_index` |

**How the source's Python idioms are represented**

- *Eviction.* Reading `stock_price` mutates the stock: it drops every trade older than `now - decay`. Each metric here is therefore a pure function of `(stock, now)`. It returns a `Quote`, which holds the evicted stock together with the value.
- *The clock.* The clock reading `now` is a parameter.
- *Exceptions.* The exceptions the model carries are `Failure` values:
  - `ValidationError` with the list of failing fields, from construction and from `record_trade`;
  - `TypeError` from constructing a preferred stock without a fixed dividend;
  - `StockError` from `add_stock` given something other than a stock;
  - `KeyError` from `get_stock`;
  - `ZeroDivisionError` from `dividend_yield` as written, when the first read sees a price and the second read, on the evicted ledger, sees none (`Metrics.DividendYieldAsWritten`).

  The exceptions listed under "## Left out" are not modelled.
- *The nth root.* The all-share index is `product ** (1 / count)`, and that root cannot be computed exactly over the reals. It is represented as the pair `ShareIndex(product, count)`. The predicate `Denotes(index, r)` says which real `r` the pair stands for: the unique `r > 0` with `r^count == product`, or the `0.0` sentinel when `count` is 0.

**Behaviour of the code that is easy to miss**

- *Preferred stock without a fixed dividend.* Constructing one evaluates `float(None)` (sss/model.py:70). That raises `TypeError`, which the `except ValueError` at sss/model.py:75 does not catch. So it escapes as a `TypeError` and is not collected into the `ValidationError`.
- *`get_stock` on an absent symbol.* It raises the dictionary's `KeyError` (sss/model.py:226).
- *The timestamp bound of `record_trade`.* A new trade is compared with the last trade still in the ledger (sss/model.py:99). A price read that has evicted every trade therefore also forgets the bound: a timestamp earlier than the evicted trades is accepted (`Metrics.ReadForgetsLastTrade`). The ledger stays in time order either way.

## Model

| member | source | states |
|---|---|---|
| Validation.SplitJoin | sss/model.py:87-88 | splitting a `'\n'`-joined list of newline-free lines on `'\n'` gives back exactly that list |
| Validation.DescribeSingleLine | sss/model.py:50-127 | every per-field failure message is a single line (the invalid-symbol message provided the symbol has no newline) |
| Validation.MessageHasOneLinePerFailure | sss/model.py:129-130 | a `ValidationError` message, split on `'\n'`, is exactly one line per failing field, in the order the fields were checked |
| Ledger.ParseSide | sss/model.py:115-120 | a side tag is accepted iff it is exactly `buy` or `sell`, and the parsed side prints back as the same tag |
| Ledger.Evict | sss/model.py:176-179 | eviction leaves a suffix of the ledger; every dropped trade is older than the cutoff, and the first kept trade is not |
| Ledger.EvictIsRecent | sss/model.py:177-179 | on a time-ordered ledger, popping from the left while the head is older than the cutoff equals filtering out exactly the trades older than the cutoff |
| Ledger.EvictKeepsWindow | sss/model.py:177-179 | a trade survives eviction iff its timestamp is at or after the cutoff (both directions, by index) |
| Ledger.EvictValid | sss/model.py:178-179 | eviction preserves the ledger invariant: well-formed trades in non-decreasing time order |
| Ledger.EvictIdempotent | sss/model.py:178-179 | evicting twice against the same cutoff is the same as evicting once |
| Ledger.EvictCompose | sss/model.py:176-179 | evicting at an earlier cutoff and then a later one is the same as evicting once at the later one |
| Ledger.AveragePrice | sss/model.py:181-189 | the empty ledger gives the 0.0 sentinel; otherwise the result times the total quantity is the total of price·quantity, and it is positive exactly when there is a trade |
| Ledger.AveragePriceBetween | sss/model.py:184-189 | the weighted average lies between the lowest and the highest price of the trades it averages |
| Ledger.EvictIgnoresSide | sss/model.py:178 | eviction looks only at timestamps: ledgers that differ only in buy/sell sides are evicted at the same places |
| Ledger.AveragePriceIgnoresSide | sss/model.py:184-185 | the side is discarded: ledgers that differ only in buy/sell sides have the same weighted average |
| Stocks.ParseStockType | sss/model.py:8-10 | a stock-type tag is accepted iff it is exactly `common` or `preferred`, and it round-trips through the stored type |
| Stocks.StockErrors | sss/model.py:46-86 | one failure per failing configuration field, in check order, and a field fails iff its condition is violated (symbol not three letters A–Z; type tag unknown; negative last dividend; for a preferred stock a percentage outside [0, 100]; negative par value) |
| Stocks.StockErrorsOnlyConfigFields | sss/model.py:48-85 | construction reports only configuration fields, and an invalid-symbol failure names the symbol it was given |
| Stocks.NewStock | sss/model.py:30-90 | construction succeeds iff every field is valid; the result holds the given fields, an empty ledger and `None` as percentage for a common stock; a preferred stock with no fixed dividend fails with `TypeError`, and every other failure is a non-empty `ValidationError` listing exactly the failing fields |
| Stocks.RebuildRoundTrip | sss/model.py:134-156 | reading back a valid stock's configuration through its accessors and constructing again gives the same configuration with an empty ledger |
| Stocks.CommonIgnoresFixedDividend | sss/model.py:68-74 | for a common stock the fixed-dividend argument affects neither the result nor the errors |
| Stocks.DefaultWindow | sss/model.py:30-31 | a stock constructed without a window width gets the default of 15 · 60 = 900 seconds |
| Stocks.FixedDividend | sss/model.py:146-152 | `fixed_dividend` is present iff the stock is preferred, equals the stored percentage divided by 100, and lies in [0, 1] |
| Stocks.TradeErrors | sss/model.py:92-127 | one failure per failing trade field, in check order; the timestamp fails iff it is negative or earlier than the last trade still in the ledger (an equal timestamp passes); quantity fails iff below 1; side iff not `buy`/`sell`; price iff not positive |
| Stocks.RecordTrade | sss/model.py:191-195 | recording succeeds iff every trade field is valid; success appends exactly one trade with the given fields at the tail, leaving the configuration and every earlier trade unchanged, and keeps the stock valid; failure is a `ValidationError` listing exactly the failing fields |
| Metrics.StockPrice | sss/model.py:174-189 | a price read keeps the stock valid with the same configuration, keeps a suffix of its ledger, and gives 0.0 exactly when no trade is left in the window, a positive price otherwise |
| Metrics.StockPriceWindow | sss/model.py:176-179 | a read keeps exactly the trades at or after `now - decay`, which is the time filter of the ledger |
| Metrics.StockPriceIsAverage | sss/model.py:184-189 | the price is Σ price·quantity / Σ quantity over the kept trades |
| Metrics.StockPriceAllRecent | sss/model.py:181-189 | with every trade inside the window, nothing is evicted and the price is the weighted average of the whole ledger |
| Metrics.StockPriceAllStale | sss/model.py:176-182 | with every trade older than the window, the ledger is emptied and the price is 0.0 |
| Metrics.ReadForgetsLastTrade | sss/model.py:97-100 | after a read has evicted every trade, the timestamp check accepts any non-negative timestamp, including one earlier than the last evicted trade, which the same check refuses before the read |
| Metrics.StockPriceBetween | sss/model.py:184-189 | a non-zero price lies between the lowest and highest price of the trades inside the window |
| Metrics.StockPriceIgnoresSide | sss/model.py:184-185 | two stocks whose ledgers differ only in buy/sell sides have the same price |
| Metrics.StockPriceLaterRead | sss/model.py:174-179 | the eviction a read leaves behind is invisible to a later read: reading at an earlier and then a later clock gives what one read at the later clock gives |
| Metrics.Dividend | sss/model.py:162-165 | the dividend a yield is taken against is the last dividend for a common stock and fixed dividend × par value for a preferred one |
| Metrics.DividendYield | sss/model.py:158-165 | the yield is 0.0 when there is no price, and otherwise the yield times the price is the dividend |
| Metrics.PeRatio | sss/model.py:167-172 | the P/E ratio is 0.0 when the yield is 0.0, and otherwise the ratio times the yield is the price |
| Metrics.PeRatioClosedForm | sss/model.py:167-172 | with a price and a positive dividend the P/E ratio times the dividend is price²; with no price or a zero dividend it is 0.0 |
| Metrics.DividendYieldAsWritten | sss/model.py:158-165 | the yield as written, reading the price once for the zero test and once more, on the evicted ledger, for the division: it raises exactly when the first read sees a price and the second sees none; otherwise it is 0.0 when the first read sees no price, and else the dividend divided by the second read's price |
| Metrics.DividendYieldAsWrittenDividesByZero | sss/model.py:160-165 | a stock whose only trade is at t, read at t + decay and then at any later instant, makes the as-written yield divide by zero |
| Metrics.DividendYieldOneClock | sss/model.py:158-165 | with one clock reading for both reads, the as-written yield never fails and equals the single-read yield |
| GeometricMean.ProductRemove | sss/model.py:211-215 | the product of the prices does not depend on the order the keys are visited: any factor can be taken out first |
| GeometricMean.IndexOf | sss/model.py:204-216 | the loop over all prices multiplies exactly the non-zero prices and counts them, giving the order-free expected index |
| GeometricMean.DenotesUnique | sss/model.py:210-216 | an index stands for at most one real: the positive n-th root is unique |
| GeometricMean.IndexOfNothing | sss/model.py:207-208 | with no priced stock the index stands for 0.0 and nothing else |
| GeometricMean.IndexOfOne | sss/model.py:210-216 | with one priced stock the index is that stock's price |
| GeometricMean.IndexOfTwo | sss/model.py:210-216 | with two priced stocks, r is the index iff r > 0 and r² is the product of their prices |
| GeometricMean.IndexBetween | sss/model.py:210-216 | with non-negative prices the index lies between the lowest and the highest counted price |
| GeometricMean.ZeroPriceIgnored | sss/model.py:204-206 | a key priced 0.0 contributes neither a factor nor a count |
| Manager.AddStock | sss/model.py:219-223 | anything but a stock fails with `StockError`; a stock is filed under its symbol, replacing any earlier entry, and every other entry is unchanged |
| Manager.GetStock | sss/model.py:225-226 | lookup succeeds iff the symbol is registered and returns the filed stock; otherwise it fails with `KeyError` naming the symbol |
| Manager.AddThenGet | sss/model.py:219-226 | after adding a stock, getting its symbol returns it and getting any other symbol answers as before |
| Manager.Prices | sss/model.py:213-214 | every registered stock has exactly one price, and no price is negative |
| Manager.AllShareIndex | sss/model.py:202-217 | every stock's ledger is evicted at `now`; the index counts exactly the stocks whose price is positive and multiplies exactly their prices |
| Manager.PricesAgreeElsewhere | sss/model.py:213-214 | two registries that file the same stocks away from one symbol give every other symbol the same price |
| Manager.FiledPrices | sss/model.py:219-223 | filing a stock with no price at `now` adds its symbol to the price family at 0.0 |
| Manager.UnpricedStockIgnored | sss/model.py:204-206 | filing a stock with no price in its window removes its symbol from the index and leaves every other factor as it was |

## Left out

- `sss/cli.py` (the interactive shell) and `sss/sss.py` (seed data and start-up) are not part of this model. They do console I/O and process set-up around the core.
- `sss/storage.py` is not part of this model. It is an unused, unfinished storage stub with no behaviour to model: its index classes are empty, `insert` iterates a dictionary as if it held pairs (sss/storage.py:28), and `get` does nothing after its argument check (sss/storage.py:33-36).
- `time.time()`: the clock reading is the parameter `now`. The model does not require successive readings to increase.
- Python's `float()` / `int()` coercion of strings, the `ValueError` an unparsable string raises, and `int()` truncating a float quantity. Inputs are modelled as already-typed numbers: `real`, and `int` for the quantity.
- IEEE-754 rounding: prices, sums and quotients are exact reals.
- Stocks.NewStock: the symbol check is "exactly three characters A–Z". Python's `$` also accepts one trailing newline after the three letters (sss/model.py:28); the model does not.
- The numeric value of the n-th root: the index is the exact pair (product, count), and `Denotes` states which real it stands for. The model does not prove that such a real exists for every positive product.
- `all_share_index` reads `stock_price` twice per stock: once in `filter`, once in `map`, each with its own `time.time()`. `Manager.AllShareIndex` reads each stock once at one clock reading. The same double read as in the finding below can put a zero factor into the product.
- `pe_ratio` reads `dividend_yield` and `stock_price` again after its own zero test. It inherits the finding below, so it too can raise `ZeroDivisionError` when the clock moves between its reads. `Metrics.PeRatio` samples one clock and never fails.
- Object identity. `add_stock` files a reference to the stock (sss/model.py:223) and `get_stock` returns it (sss/model.py:226), so a trade recorded or an eviction done through any reference shows up in the registry. `Manager.Registry` holds values: a stock changed by `RecordTrade` or `StockPrice` reaches the registry only when it is filed again with `AddStock`, and `Manager.AllShareIndex` returns the evicted registry explicitly.
- `TypeError` from `float(None)` for `last_dividend` or `par_value` (sss/model.py:62, 81): those inputs are typed `real`, so they cannot be `None`.
- The trade deque's element shape `(timestamp, (quantity, buy_sell, price))` is flattened into the `Trade` datatype.
- The iteration order of the source's dictionary: the index is defined independently of order (`GeometricMean.ProductRemove`).

## Findings

| source | as written | input that shows it | evidently intended | confidence | as-written member | corrected member |
|---|---|---|---|---|---|---|
| sss/model.py:160-165 | `dividend_yield` tests `self.stock_price == 0.0` and then divides by `self.stock_price` read again. Each read calls `time.time()` and evicts, so a trade can leave the window between the two reads. | stock POP, common, one trade at t = 0.0, decay 900; the first read at 900.0 sees price 2.0, the second read at 900.5 sees 0.0, so `ZeroDivisionError` | read the price once and use that value for both the test and the division | medium, not executed | Metrics.DividendYieldAsWrittenDividesByZero | Metrics.DividendYieldOneClock |

=== FILE: geomean.dfy ===
/**
  Exact arithmetic behind the all-share index: the product of a family of
  prices, natural powers, and the geometric mean represented by the pair
  (product, count) together with the real it stands for.
 */
module GeometricMean {

  /**
    The keys whose price counts towards the index: those whose price is
    truthy, that is, non-zero.
   */
  function PricedKeys(prices: map<string, real>): set<string> {
    set k | k in prices && prices[k] != 0.0
  }

  /** Some element of a non-empty set: the factor the product takes out first. */
  ghost function Pick(keys: set<string>): (k: string)
    requires keys != {}
    ensures k in keys
  {
    var k :| k in keys; k
  }

  /** Π prices[k] over `keys`, in no particular order. */
  ghost function Product(prices: map<string, real>, keys: set<string>): real
    requires keys <= prices.Keys
    decreases keys
  {
    if keys == {} then 1.0
    else prices[Pick(keys)] * Product(prices, keys - {Pick(keys)})
  }

  /** Two factors can be applied in either order. */
  lemma MulSwap(a: real, b: real, x: real, ax: real, bx: real)
    requires ax == a * x && bx == b * x
    ensures a * bx == b * ax
  {
  }

  /** Any factor can be taken out of the product first. */
  lemma {:induction false} ProductRemove(prices: map<string, real>, keys: set<string>, k: string)
    requires keys <= prices.Keys
    requires k in keys
    ensures Product(prices, keys) == prices[k] * Product(prices, keys - {k})
    decreases keys
  {
    var j := Pick(keys);
    if j != k {
      var both := keys - {j} - {k};
      assert Product(prices, keys - {j}) == prices[k] * Product(prices, both) by {
        ProductRemove(prices, keys - {j}, k);
      }
      assert Product(prices, keys - {k}) == prices[j] * Product(prices, both) by {
        assert keys - {k} - {j} == both;
        ProductRemove(prices, keys - {k}, j);
      }
      MulSwap(prices[j], prices[k], Product(prices, both),
              Product(prices, keys - {k}), Product(prices, keys - {j}));
    }
  }

  /** Adding a key multiplies the product by its price. */
  lemma ProductAdd(prices: map<string, real>, keys: set<string>, k: string)
    requires keys <= prices.Keys
    requires k in prices && k !in keys
    ensures Product(prices, keys + {k}) == prices[k] * Product(prices, keys)
  {
    ProductRemove(prices, keys + {k}, k);
    assert keys + {k} - {k} == keys;
  }

  /** The product only looks at the prices of its own keys. */
  lemma {:induction false} ProductCongruent(p: map<string, real>, q: map<string, real>, keys: set<string>)
    requires keys <= p.Keys && keys <= q.Keys
    requires forall k :: k in keys ==> p[k] == q[k]
    ensures Product(p, keys) == Product(q, keys)
    decreases keys
  {
    if keys != {} {
      var k :| k in keys;
      ProductRemove(p, keys, k);
      ProductRemove(q, keys, k);
      ProductCongruent(p, q, keys - {k});
    }
  }

  /** x raised to the natural power n. */
  function Pow(x: real, n: nat): real {
    if n == 0 then 1.0 else x * Pow(x, n - 1)
  }

  /** Products of non-negative factors grow with each factor. */
  lemma MulMonotone(a: real, b: real, c: real, d: real)
    requires 0.0 <= a <= b
    requires 0.0 <= c <= d
    ensures a * c <= b * d
  {
    assert a * c <= b * c by {
      assert (b - a) * c >= 0.0;
    }
    assert b * c <= b * d by {
      assert b * (d - c) >= 0.0;
    }
  }

  lemma PowSucc(x: real, n: nat)
    ensures Pow(x, n + 1) == x * Pow(x, n)
  {
  }

  lemma PowTwo(x: real)
    ensures Pow(x, 2) == x * x
  {
    assert Pow(x, 1) == x;
  }

  lemma {:induction false} PowPositive(x: real, n: nat)
    requires x > 0.0
    ensures Pow(x, n) > 0.0
  {
    if n > 0 {
      PowPositive(x, n - 1);
    }
  }

  /** Multiplying by a positive factor keeps a strict order. */
  lemma MulStrict(a: real, b: real, c: real)
    requires a < b && 0.0 < c
    ensures a * c < b * c
  {
    assert (b - a) * c > 0.0;
  }

  /** On positive bases, raising to a positive power is strictly increasing. */
  lemma {:induction false} PowStrictlyIncreasing(x: real, y: real, n: nat)
    requires 0.0 < x < y
    requires n >= 1
    ensures Pow(x, n) < Pow(y, n)
  {
    PowSucc(x, n - 1);
    PowSucc(y, n - 1);
    if n == 1 {
      assert Pow(x, 0) == 1.0 && Pow(y, 0) == 1.0;
    } else {
      PowStrictlyIncreasing(x, y, n - 1);
      PowPositive(x, n - 1);
      var px, py := Pow(x, n - 1), Pow(y, n - 1);
      MulStrict(x, y, px);
      MulStrict(px, py, y);
      assert x * px < y * py;
    }
  }

  /** Every factor of the index is positive, so a non-empty index has a positive product. */
  lemma {:induction false} ProductOfPositives(prices: map<string, real>, keys: set<string>)
    requires keys <= prices.Keys
    requires forall k :: k in keys ==> prices[k] > 0.0
    ensures Product(prices, keys) > 0.0
    decreases keys
  {
    if keys != {} {
      var k :| k in keys;
      ProductRemove(prices, keys, k);
      ProductOfPositives(prices, keys - {k});
    }
  }

  /**
    The inductive step of the product bounds, with the product and the
    power already unfolded: a factor and a partial product, each bounded,
    bound the whole.
   */
  lemma BoundStep(a: real, b: real, c: real, d: real, ac: real, bd: real)
    requires 0.0 <= a <= b
    requires 0.0 <= c <= d
    requires ac == a * c && bd == b * d
    ensures ac <= bd
  {
    MulMonotone(a, b, c, d);
  }

  /** Prices of at least `lo` make the product at least lo^n. */
  lemma {:induction false} ProductAtLeast(prices: map<string, real>, keys: set<string>, lo: real)
    requires keys <= prices.Keys
    requires 0.0 < lo
    requires forall k :: k in keys ==> lo <= prices[k]
    ensures Pow(lo, |keys|) <= Product(prices, keys)
    decreases keys
  {
    if keys != {} {
      var k :| k in keys;
      var rest := keys - {k};
      ProductAtLeast(prices, rest, lo);
      AtLeastStep(prices, keys, k, lo);
    }
  }

  /** The inductive step of `ProductAtLeast`: one more factor of at least `lo`. */
  lemma AtLeastStep(prices: map<string, real>, keys: set<string>, k: string, lo: real)
    requires keys <= prices.Keys && k in keys
    requires 0.0 < lo <= prices[k]
    requires Pow(lo, |keys - {k}|) <= Product(prices, keys - {k})
    ensures Pow(lo, |keys|) <= Product(prices, keys)
  {
    var rest := keys - {k};
    ProductRemove(prices, keys, k);
    PowPositive(lo, |rest|);
    PowSucc(lo, |rest|);
    var pw, pr, pn, pk := Pow(lo, |rest|), Product(prices, rest), Pow(lo, |rest| + 1), Product(prices, keys);
    BoundStep(lo, prices[k], pw, pr, pn, pk);
    assert |keys| == |rest| + 1;
  }

  /** Positive prices of at most `hi` make the product at most hi^n. */
  lemma {:induction false} ProductAtMost(prices: map<string, real>, keys: set<string>, hi: real)
    requires keys <= prices.Keys
    requires forall k :: k in keys ==> 0.0 < prices[k] <= hi
    ensures Product(prices, keys) <= Pow(hi, |keys|)
    decreases keys
  {
    if keys != {} {
      var k :| k in keys;
      var rest := keys - {k};
      ProductAtMost(prices, rest, hi);
      ProductOfPositives(prices, rest);
      AtMostStep(prices, keys, k, hi);
    }
  }

  /** The inductive step of `ProductAtMost`: one more factor of at most `hi`. */
  lemma AtMostStep(prices: map<string, real>, keys: set<string>, k: string, hi: real)
    requires keys <= prices.Keys && k in keys
    requires 0.0 < prices[k] <= hi
    requires 0.0 < Product(prices, keys - {k}) <= Pow(hi, |keys - {k}|)
    ensures Product(prices, keys) <= Pow(hi, |keys|)
  {
    var rest := keys - {k};
    ProductRemove(prices, keys, k);
    PowSucc(hi, |rest|);
    var pr, pw, pk, pn := Product(prices, rest), Pow(hi, |rest|), Product(prices, keys), Pow(hi, |rest| + 1);
    BoundStep(prices[k], hi, pr, pw, pk, pn);
    assert |keys| == |rest| + 1;
  }

  /**
    The all-share index in exact form: the product of the positive prices
    and how many there are. The value it stands for is `product^(1/count)`,
    or 0.0 when `count` is 0; `Denotes` says which real that is.
   */
  datatype ShareIndex = ShareIndex(product: real, count: nat)

  /** `r` is the real the index stands for. */
  ghost predicate Denotes(index: ShareIndex, r: real) {
    if index.count == 0 then r == 0.0
    else r > 0.0 && Pow(r, index.count) == index.product
  }

  /** An index stands for at most one real: the geometric mean is well defined. */
  lemma DenotesUnique(index: ShareIndex, r1: real, r2: real)
    requires Denotes(index, r1) && Denotes(index, r2)
    ensures r1 == r2
  {
    if index.count > 0 && r1 != r2 {
      if r1 < r2 {
        PowStrictlyIncreasing(r1, r2, index.count);
      } else {
        PowStrictlyIncreasing(r2, r1, index.count);
      }
    }
  }

  /** The index a family of prices should produce: an independent, order-free definition. */
  ghost function ExpectedIndex(prices: map<string, real>): ShareIndex {
    ShareIndex(Product(prices, PricedKeys(prices)), |PricedKeys(prices)|)
  }

  /**
    One step of the index loop over the keys: visiting key `k` moves it out
    of the pending keys, and into the counted keys exactly when its price is
    non-zero.
   */
  lemma IndexStep(prices: map<string, real>, priced: set<string>, pending: set<string>, k: string)
    requires pending <= prices.Keys && k in pending
    requires priced == PricedKeys(prices) - pending
    ensures priced <= prices.Keys && k !in priced
    ensures prices[k] != 0.0 ==>
      && priced + {k} == PricedKeys(prices) - (pending - {k})
      && |priced + {k}| == |priced| + 1
    ensures prices[k] == 0.0 ==> priced == PricedKeys(prices) - (pending - {k})
  {
    if prices[k] != 0.0 {
      assert k in PricedKeys(prices);
    } else {
      assert k !in PricedKeys(prices);
    }
  }

  /** The running product of the index loop after one more non-zero price. */
  lemma ProductStep(prices: map<string, real>, priced: set<string>, product: real, k: string)
    requires priced <= prices.Keys
    requires k in prices && k !in priced
    requires product == Product(prices, priced)
    ensures prices[k] * product == Product(prices, priced + {k})
  {
    ProductAdd(prices, priced, k);
  }

  /**
    The index over a family of prices, computed the way the source does:
    keep the non-zero prices, multiply them, and count them.
   */
  method IndexOf(prices: map<string, real>) returns (index: ShareIndex)
    ensures index == ExpectedIndex(prices)
  {
    var pending := prices.Keys;
    var product := 1.0;
    var count := 0;
    ghost var priced: set<string> := {};
    assert priced == PricedKeys(prices) - pending;
    assert product == Product(prices, priced);
    while pending != {}
      invariant pending <= prices.Keys
      invariant priced == PricedKeys(prices) - pending
      invariant count == |priced|
      invariant product == Product(prices, priced)
      decreases pending
    {
      var k :| k in pending;
      IndexStep(prices, priced, pending, k);
      if prices[k] != 0.0 {
        ProductStep(prices, priced, product, k);
        product := prices[k] * product;
        count := count + 1;
        priced := priced + {k};
      }
      pending := pending - {k};
    }
    assert priced == PricedKeys(prices);
    index := ShareIndex(product, count);
  }

  /** Nothing priced: the index stands for the 0.0 sentinel and nothing else. */
  lemma IndexOfNothing(prices: map<string, real>, r: real)
    requires PricedKeys(prices) == {}
    ensures Denotes(ExpectedIndex(prices), r) <==> r == 0.0
  {
  }

  /** One price: the index is that price. */
  lemma IndexOfOne(prices: map<string, real>, k: string)
    requires PricedKeys(prices) == {k}
    requires prices[k] > 0.0
    ensures Denotes(ExpectedIndex(prices), prices[k])
  {
    ProductRemove(prices, {k}, k);
    assert {k} - {k} == {};
    assert Pow(prices[k], 1) == prices[k];
  }

  /** Two prices: the index is the square root of their product. */
  lemma IndexOfTwo(prices: map<string, real>, a: string, b: string, r: real)
    requires a != b
    requires PricedKeys(prices) == {a, b}
    ensures Denotes(ExpectedIndex(prices), r) <==> r > 0.0 && r * r == prices[a] * prices[b]
  {
    ProductRemove(prices, {a, b}, a);
    assert {a, b} - {a} == {b};
    ProductRemove(prices, {b}, b);
    assert {b} - {b} == {};
    assert |{a, b}| == 2;
    PowTwo(r);
  }

  /**
    With no negative prices, the index lies between the lowest and highest
    counted price: a geometric mean never leaves the range it averages.
   */
  lemma IndexBetween(prices: map<string, real>, r: real, lo: real, hi: real)
    requires forall k :: k in prices ==> prices[k] >= 0.0
    requires PricedKeys(prices) != {}
    requires Denotes(ExpectedIndex(prices), r)
    requires 0.0 < lo
    requires forall k :: k in PricedKeys(prices) ==> lo <= prices[k] <= hi
    ensures lo <= r <= hi
  {
    var keys := PricedKeys(prices);
    var n := |keys|;
    ProductAtLeast(prices, keys, lo);
    ProductAtMost(prices, keys, hi);
    if r < lo {
      PowStrictlyIncreasing(r, lo, n);
    }
    if hi < r {
      PowStrictlyIncreasing(hi, r, n);
    }
  }

  /**
    A family that agrees with `prices` except that key `k` is priced 0.0
    (whether or not `prices` had `k`) has the same index as `prices` with
    `k` left out: the zero neither multiplies nor counts.
   */
  lemma ZeroPriceIgnored(prices: map<string, real>, zeroed: map<string, real>, k: string)
    requires zeroed.Keys == prices.Keys + {k}
    requires zeroed[k] == 0.0
    requires forall j :: j in prices && j != k ==> zeroed[j] == prices[j]
    ensures PricedKeys(zeroed) == PricedKeys(prices) - {k}
    ensures ExpectedIndex(zeroed)
         == ShareIndex(Product(prices, PricedKeys(prices) - {k}), |PricedKeys(prices) - {k}|)
  {
    assert PricedKeys(zeroed) == PricedKeys(prices) - {k};
    ProductCongruent(zeroed, prices, PricedKeys(prices) - {k});
  }
}

=== FILE: ledger.dfy ===
/**
  The trade ledger of one stock: a time-ordered sequence of trades, the
  lazy eviction of trades that fell out of the rolling window, and the
  quantity-weighted average price over what remains.
 */
module Ledger {
  import opened Wrappers

  /** The side of a trade (`'buy'` / `'sell'` in the source). */
  datatype Side = Buy | Sell

  /** One recorded trade: `(timestamp, (quantity, buy_sell, price))`. */
  datatype Trade = Trade(timestamp: real, quantity: int, side: Side, price: real)

  const BuyTag: string := "buy"
  const SellTag: string := "sell"

  /** The tag the source stores for a side. */
  function SideTag(side: Side): string {
    match side
    case Buy => BuyTag
    case Sell => SellTag
  }

  /** Membership test against the source's two trade tags, case-sensitive. */
  function ParseSide(tag: string): (r: Option<Side>)
    ensures r.Some? <==> tag == BuyTag || tag == SellTag
    ensures r.Some? ==> SideTag(r.value) == tag
  {
    if tag == BuyTag then Some(Buy)
    else if tag == SellTag then Some(Sell)
    else None
  }

  /** What trade validation guarantees of every recorded trade. */
  predicate WellFormed(t: Trade) {
    t.timestamp >= 0.0 && t.quantity >= 1 && t.price > 0.0
  }

  /** Timestamps never go backwards along the ledger. */
  predicate Sorted(ts: seq<Trade>) {
    forall i, j :: 0 <= i < j < |ts| ==> ts[i].timestamp <= ts[j].timestamp
  }

  /** The invariant every ledger keeps: well-formed trades in time order. */
  predicate ValidLedger(ts: seq<Trade>) {
    Sorted(ts) && forall i :: 0 <= i < |ts| ==> WellFormed(ts[i])
  }

  /**
    Drops trades from the head while the head is older than `cutoff`,
    stopping at the first trade that is still inside the window.
   */
  function Evict(ts: seq<Trade>, cutoff: real): (r: seq<Trade>)
    ensures |r| <= |ts| && r == ts[|ts| - |r|..]
    ensures |r| > 0 ==> r[0].timestamp >= cutoff
    ensures forall i :: 0 <= i < |ts| - |r| ==> ts[i].timestamp < cutoff
    decreases |ts|
  {
    if |ts| > 0 && ts[0].timestamp < cutoff then Evict(ts[1..], cutoff) else ts
  }

  /** The trades at or after `cutoff`, in ledger order: a reference for `Evict`. */
  function Recent(ts: seq<Trade>, cutoff: real): seq<Trade> {
    if |ts| == 0 then []
    else (if ts[0].timestamp >= cutoff then [ts[0]] else []) + Recent(ts[1..], cutoff)
  }

  lemma {:induction false} RecentKeepsAll(ts: seq<Trade>, cutoff: real)
    requires forall i :: 0 <= i < |ts| ==> ts[i].timestamp >= cutoff
    ensures Recent(ts, cutoff) == ts
    decreases |ts|
  {
    if |ts| > 0 {
      RecentKeepsAll(ts[1..], cutoff);
      assert ts == [ts[0]] + ts[1..];
    }
  }

  /**
    On a time-ordered ledger, eviction removes exactly the trades older
    than the cutoff: stopping at the first recent trade loses nothing.
   */
  lemma {:induction false} EvictIsRecent(ts: seq<Trade>, cutoff: real)
    requires Sorted(ts)
    ensures Evict(ts, cutoff) == Recent(ts, cutoff)
    decreases |ts|
  {
    if |ts| > 0 {
      if ts[0].timestamp < cutoff {
        EvictIsRecent(ts[1..], cutoff);
      } else {
        RecentKeepsAll(ts, cutoff);
      }
    }
  }

  /**
    On a time-ordered ledger, a trade survives eviction exactly when its
    timestamp is at or after the cutoff.
   */
  lemma EvictKeepsWindow(ts: seq<Trade>, cutoff: real)
    requires Sorted(ts)
    ensures forall i :: 0 <= i < |ts| ==>
      (i >= |ts| - |Evict(ts, cutoff)| <==> ts[i].timestamp >= cutoff)
  {
    var r := Evict(ts, cutoff);
    forall i | |ts| - |r| <= i < |ts|
      ensures ts[i].timestamp >= cutoff
    {
      assert r[0] == ts[|ts| - |r|];
    }
  }

  /** Every suffix of a valid ledger is valid. */
  lemma SuffixValid(ts: seq<Trade>, k: nat)
    requires ValidLedger(ts)
    requires k <= |ts|
    ensures ValidLedger(ts[k..])
  {
    var r := ts[k..];
    forall i, j | 0 <= i < j < |r|
      ensures r[i].timestamp <= r[j].timestamp
    {
      assert r[i] == ts[k + i] && r[j] == ts[k + j];
    }
  }

  /** Eviction keeps the ledger invariant. */
  lemma EvictValid(ts: seq<Trade>, cutoff: real)
    requires ValidLedger(ts)
    ensures ValidLedger(Evict(ts, cutoff))
  {
    var r := Evict(ts, cutoff);
    SuffixValid(ts, |ts| - |r|);
  }

  /** Evicting twice against the same cutoff evicts nothing more. */
  lemma EvictIdempotent(ts: seq<Trade>, cutoff: real)
    ensures Evict(Evict(ts, cutoff), cutoff) == Evict(ts, cutoff)
  {
  }

  /**
    Evicting against an earlier cutoff and then a later one is the same as
    evicting against the later one directly: queries at increasing times
    compose.
   */
  lemma {:induction false} EvictCompose(ts: seq<Trade>, early: real, late: real)
    requires early <= late
    ensures Evict(Evict(ts, early), late) == Evict(ts, late)
    decreases |ts|
  {
    if |ts| > 0 && ts[0].timestamp < early {
      EvictCompose(ts[1..], early, late);
    }
  }

  /** Σ quantityᵢ. */
  function TotalQuantity(ts: seq<Trade>): int {
    if |ts| == 0 then 0 else ts[0].quantity + TotalQuantity(ts[1..])
  }

  /** Σ priceᵢ · quantityᵢ. */
  function TotalValue(ts: seq<Trade>): real {
    if |ts| == 0 then 0.0 else ts[0].price * ts[0].quantity as real + TotalValue(ts[1..])
  }

  lemma {:induction false} TotalQuantityPositive(ts: seq<Trade>)
    requires forall i :: 0 <= i < |ts| ==> WellFormed(ts[i])
    ensures TotalQuantity(ts) >= |ts|
    decreases |ts|
  {
    if |ts| > 0 {
      TotalQuantityPositive(ts[1..]);
    }
  }

  /** `r` is the quantity-weighted average price of `ts`: r · Σ quantityᵢ = Σ priceᵢ·quantityᵢ. */
  predicate IsWeightedAverage(r: real, ts: seq<Trade>) {
    r * TotalQuantity(ts) as real == TotalValue(ts)
  }

  /**
    The quantity-weighted average price, or the 0.0 sentinel for an empty
    ledger. It is positive exactly when there is a trade.
   */
  function AveragePrice(ts: seq<Trade>): (r: real)
    requires forall i :: 0 <= i < |ts| ==> WellFormed(ts[i])
    ensures |ts| == 0 ==> r == 0.0
    ensures IsWeightedAverage(r, ts)
    ensures r >= 0.0
    ensures r > 0.0 <==> |ts| > 0
  {
    TotalQuantityPositive(ts);
    if |ts| == 0 then 0.0
    else
      assert TotalValue(ts) > 0.0 by {
        ValuePositive(ts);
      }
      TotalValue(ts) / TotalQuantity(ts) as real
  }

  lemma {:induction false} ValuePositive(ts: seq<Trade>)
    requires |ts| > 0
    requires forall i :: 0 <= i < |ts| ==> WellFormed(ts[i])
    ensures TotalValue(ts) > 0.0
    decreases |ts|
  {
    assert WellFormed(ts[0]);
    assert ts[0].price * ts[0].quantity as real > 0.0;
    if |ts| > 1 {
      ValuePositive(ts[1..]);
    }
  }

  /** A quantity of at least one scales an interval of prices monotonically. */
  lemma ScaleBetween(p: real, q: real, lo: real, hi: real)
    requires q >= 1.0
    requires lo <= p <= hi
    ensures lo * q <= p * q <= hi * q
  {
    assert (p - lo) * q >= 0.0;
    assert (hi - p) * q >= 0.0;
  }

  /** Prices inside [lo, hi] bound the total value by lo·Σq and hi·Σq. */
  lemma {:induction false} ValueBounds(ts: seq<Trade>, lo: real, hi: real)
    requires forall i :: 0 <= i < |ts| ==> WellFormed(ts[i]) && lo <= ts[i].price <= hi
    ensures lo * TotalQuantity(ts) as real <= TotalValue(ts)
    ensures TotalValue(ts) <= hi * TotalQuantity(ts) as real
    decreases |ts|
  {
    if |ts| > 0 {
      ValueBounds(ts[1..], lo, hi);
      assert WellFormed(ts[0]) && lo <= ts[0].price <= hi;
      ScaleBetween(ts[0].price, ts[0].quantity as real, lo, hi);
    }
  }

  /** A ratio whose numerator lies in [lo·q, hi·q] lies in [lo, hi]. */
  lemma RatioBetween(r: real, q: real, v: real, lo: real, hi: real)
    requires q > 0.0
    requires r * q == v
    requires lo * q <= v <= hi * q
    ensures lo <= r <= hi
  {
    assert (r - lo) * q >= 0.0;
    assert (hi - r) * q >= 0.0;
  }

  /** The weighted average lies between the lowest and highest remaining price. */
  lemma AveragePriceBetween(ts: seq<Trade>, lo: real, hi: real)
    requires |ts| > 0
    requires forall i :: 0 <= i < |ts| ==> WellFormed(ts[i]) && lo <= ts[i].price <= hi
    ensures lo <= AveragePrice(ts) <= hi
  {
    ValueBounds(ts, lo, hi);
    TotalQuantityPositive(ts);
    assert IsWeightedAverage(AveragePrice(ts), ts);
    RatioBetween(AveragePrice(ts), TotalQuantity(ts) as real, TotalValue(ts), lo, hi);
  }

  /** Two ledgers that differ at most in the buy/sell side of their trades. */
  predicate SameButSide(ts: seq<Trade>, us: seq<Trade>) {
    |ts| == |us| && forall i :: 0 <= i < |ts| ==> ts[i] == us[i].(side := ts[i].side)
  }

  /** Eviction looks at timestamps only, so it treats such ledgers alike. */
  lemma {:induction false} EvictIgnoresSide(ts: seq<Trade>, us: seq<Trade>, cutoff: real)
    requires SameButSide(ts, us)
    ensures SameButSide(Evict(ts, cutoff), Evict(us, cutoff))
    decreases |ts|
  {
    if |ts| > 0 && ts[0].timestamp < cutoff {
      assert ts[0].timestamp == us[0].timestamp;
      assert SameButSide(ts[1..], us[1..]) by {
        forall i | 0 <= i < |ts| - 1
          ensures ts[1..][i] == us[1..][i].(side := ts[1..][i].side)
        {
          assert ts[1..][i] == ts[i + 1] && us[1..][i] == us[i + 1];
        }
      }
      EvictIgnoresSide(ts[1..], us[1..], cutoff);
    } else if |ts| > 0 {
      assert us[0].timestamp == ts[0].timestamp;
    }
  }

  /**
    Two ledgers that agree on every quantity and price have the same totals,
    whatever their sides and timestamps.
   */
  lemma {:induction false} TotalsIgnoreSide(ts: seq<Trade>, us: seq<Trade>)
    requires |ts| == |us|
    requires forall i :: 0 <= i < |ts| ==> ts[i].quantity == us[i].quantity && ts[i].price == us[i].price
    ensures TotalQuantity(ts) == TotalQuantity(us)
    ensures TotalValue(ts) == TotalValue(us)
    decreases |ts|
  {
    if |ts| > 0 {
      TotalsIgnoreSide(ts[1..], us[1..]);
    }
  }

  /** The buy/sell side of a trade never affects the average price. */
  lemma AveragePriceIgnoresSide(ts: seq<Trade>, us: seq<Trade>)
    requires forall i :: 0 <= i < |ts| ==> WellFormed(ts[i])
    requires forall i :: 0 <= i < |us| ==> WellFormed(us[i])
    requires SameButSide(ts, us)
    ensures AveragePrice(ts) == AveragePrice(us)
  {
    forall i | 0 <= i < |ts|
      ensures ts[i].quantity == us[i].quantity && ts[i].price == us[i].price
    {
      assert ts[i] == us[i].(side := ts[i].side);
    }
    TotalsIgnoreSide(ts, us);
  }
}

=== FILE: manager.dfy ===
/**
  `StockManager`: a registry of stocks keyed by symbol and the all-share
  index, the geometric mean of the prices of the stocks that have one.
 */
module Manager {
  import opened Wrappers
  import opened Stocks
  import opened Metrics
  import opened GeometricMean

  /** The manager's `_stocks` dictionary. */
  type Registry = map<string, Stock>

  /** The argument of `add_stock`: a `Stock`, or a value of any other type. */
  datatype Value = StockValue(stock: Stock) | OtherValue

  /** `StockError` for a wrong argument type; `KeyError` for an absent symbol. */
  datatype ManagerError = StockError | KeyError(symbol: string)

  /** Every entry is a valid stock filed under its own symbol. */
  predicate ValidRegistry(reg: Registry) {
    forall k :: k in reg ==> ValidStock(reg[k]) && reg[k].config.symbol == k
  }

  /**
    `add_stock`: refuses anything but a stock; otherwise files the stock
    under its symbol, replacing any earlier entry, and leaves every other
    entry as it was.
   */
  function AddStock(reg: Registry, v: Value): (r: Result<Registry, ManagerError>)
    ensures r.Failure? <==> v.OtherValue?
    ensures r.Failure? ==> r.error == StockError
    ensures r.Success? ==>
      && r.value.Keys == reg.Keys + {v.stock.config.symbol}
      && r.value[v.stock.config.symbol] == v.stock
      && forall k :: k in reg && k != v.stock.config.symbol ==> r.value[k] == reg[k]
    ensures r.Success? && ValidRegistry(reg) && ValidStock(v.stock) ==> ValidRegistry(r.value)
  {
    match v
    case OtherValue => Failure(StockError)
    case StockValue(s) => Success(reg[s.config.symbol := s])
  }

  /** `get_stock`: the stock filed under `symbol`, or `KeyError`. */
  function GetStock(reg: Registry, symbol: string): (r: Result<Stock, ManagerError>)
    ensures r.Success? <==> symbol in reg
    ensures r.Success? ==> r.value == reg[symbol]
    ensures r.Failure? ==> r.error == KeyError(symbol)
  {
    if symbol in reg then Success(reg[symbol]) else Failure(KeyError(symbol))
  }

  /**
    After adding a stock, looking its symbol up returns it, and looking up
    any other symbol answers as before.
   */
  lemma AddThenGet(reg: Registry, s: Stock, other: string)
    ensures AddStock(reg, StockValue(s)).Success?
    ensures GetStock(AddStock(reg, StockValue(s)).value, s.config.symbol) == Success(s)
    ensures other != s.config.symbol ==>
      GetStock(AddStock(reg, StockValue(s)).value, other) == GetStock(reg, other)
  {
  }

  /** Each registered stock's price at clock reading `now`. */
  function Prices(reg: Registry, now: real): (prices: map<string, real>)
    requires ValidRegistry(reg)
    ensures prices.Keys == reg.Keys
    ensures forall k :: k in prices ==> prices[k] >= 0.0
  {
    map k | k in reg :: StockPrice(reg[k], now).value
  }

  /** Each registered stock as left by reading its price at clock reading `now`. */
  function Evicted(reg: Registry, now: real): (after: Registry)
    requires ValidRegistry(reg)
    ensures after.Keys == reg.Keys
    ensures ValidRegistry(after)
  {
    map k | k in reg :: StockPrice(reg[k], now).stock
  }

  /**
    `all_share_index` at clock reading `now`. Each stock's price is read,
    which evicts that stock's ledger; the registry as left by those reads
    is returned with the index. Stocks priced 0.0 contribute neither a
    factor nor a count.
   */
  method AllShareIndex(reg: Registry, now: real) returns (after: Registry, index: ShareIndex)
    requires ValidRegistry(reg)
    ensures after.Keys == reg.Keys
    ensures forall k :: k in reg ==> after[k] == StockPrice(reg[k], now).stock
    ensures ValidRegistry(after)
    ensures index.count == |set k | k in reg && StockPrice(reg[k], now).value > 0.0|
    ensures index == ExpectedIndex(Prices(reg, now))
  {
    after := Evicted(reg, now);
    var prices := Prices(reg, now);
    index := IndexOf(prices);
    assert PricedKeys(prices) == set k | k in reg && StockPrice(reg[k], now).value > 0.0;
  }

  /** Filing a valid stock under its own symbol keeps the registry valid. */
  lemma FiledValid(reg: Registry, s: Stock)
    requires ValidRegistry(reg)
    requires ValidStock(s)
    ensures ValidRegistry(reg[s.config.symbol := s])
  {
  }

  /** Two registries that file the same stocks away from `symbol` price them alike. */
  lemma PricesAgreeElsewhere(reg: Registry, other: Registry, symbol: string, now: real)
    requires ValidRegistry(reg) && ValidRegistry(other)
    requires forall j :: j in reg && j != symbol ==> j in other && other[j] == reg[j]
    ensures forall j :: j in reg && j != symbol ==> Prices(other, now)[j] == Prices(reg, now)[j]
  {
  }

  /** The price a registry lists for a symbol is the price of the stock filed there. */
  lemma PriceAt(reg: Registry, k: string, now: real)
    requires ValidRegistry(reg) && k in reg
    ensures Prices(reg, now)[k] == StockPrice(reg[k], now).value
  {
  }

  /**
    Filing a valid stock with no price at `now` keeps the registry valid
    and lists its symbol at price 0.0.
   */
  lemma FiledPrices(reg: Registry, s: Stock, now: real)
    requires ValidRegistry(reg)
    requires ValidStock(s)
    requires StockPrice(s, now).value == 0.0
    ensures ValidRegistry(reg[s.config.symbol := s])
    ensures Prices(reg[s.config.symbol := s], now).Keys == reg.Keys + {s.config.symbol}
    ensures Prices(reg[s.config.symbol := s], now)[s.config.symbol] == 0.0
  {
    FiledValid(reg, s);
    PriceAt(reg[s.config.symbol := s], s.config.symbol, now);
  }

  /**
    Filing a stock that has no price at `now` removes its symbol from the
    index and changes no other factor.
   */
  lemma UnpricedStockIgnored(reg: Registry, s: Stock, now: real)
    requires ValidRegistry(reg)
    requires ValidStock(s)
    requires StockPrice(s, now).value == 0.0
    ensures ValidRegistry(AddStock(reg, StockValue(s)).value)
    ensures var prices := Prices(reg, now);
      ExpectedIndex(Prices(AddStock(reg, StockValue(s)).value, now))
      == ShareIndex(Product(prices, PricedKeys(prices) - {s.config.symbol}),
                    |PricedKeys(prices) - {s.config.symbol}|)
  {
    FiledPrices(reg, s, now);
    PricesAgreeElsewhere(reg, reg[s.config.symbol := s], s.config.symbol, now);
    ZeroPriceIgnored(Prices(reg, now), Prices(reg[s.config.symbol := s], now), s.config.symbol);
  }
}

=== FILE: metrics.dfy ===
/**
  The derived metrics of one stock. Each query takes the clock reading
  `now` as a parameter, evicts the ledger against `now - decay` once, and
  returns the evicted stock together with the value, so the eviction the
  source performs as a side effect of reading a property is explicit.
 */
module Metrics {
  import opened Wrappers
  import opened Ledger
  import opened Stocks

  /** A metric value and the stock as left by the eviction that computed it. */
  datatype Quote = Quote(stock: Stock, value: real)

  /** The oldest timestamp still inside the window at clock reading `now`. */
  function Cutoff(s: Stock, now: real): real {
    now - s.config.decay
  }

  /**
    `stock_price` at clock reading `now`: evicts the trades older than the
    window, then takes the quantity-weighted average of what is left, or
    0.0 when nothing is left.
   */
  function StockPrice(s: Stock, now: real): (q: Quote)
    requires ValidStock(s)
    ensures ValidStock(q.stock)
    ensures q.stock.config == s.config
    ensures |q.stock.trades| <= |s.trades|
    ensures q.stock.trades == s.trades[|s.trades| - |q.stock.trades|..]
    ensures q.value >= 0.0
    ensures q.value == 0.0 <==> q.stock.trades == []
  {
    var window := Evict(s.trades, Cutoff(s, now));
    EvictValid(s.trades, Cutoff(s, now));
    Quote(Stock(s.config, window), AveragePrice(window))
  }

  /**
    The trades a read keeps are exactly those at or after the cutoff: every
    evicted trade is older, every kept one is not, and on a time-ordered
    ledger that is the same as filtering by timestamp.
   */
  lemma StockPriceWindow(s: Stock, now: real)
    requires ValidStock(s)
    ensures var kept := StockPrice(s, now).stock.trades;
      forall i :: 0 <= i < |s.trades| ==>
        (i >= |s.trades| - |kept| <==> s.trades[i].timestamp >= Cutoff(s, now))
    ensures StockPrice(s, now).stock.trades == Recent(s.trades, Cutoff(s, now))
  {
    EvictKeepsWindow(s.trades, Cutoff(s, now));
    EvictIsRecent(s.trades, Cutoff(s, now));
  }

  /** The price is Σ priceᵢ·quantityᵢ / Σ quantityᵢ over the trades the read keeps. */
  lemma StockPriceIsAverage(s: Stock, now: real)
    requires ValidStock(s)
    ensures IsWeightedAverage(StockPrice(s, now).value, StockPrice(s, now).stock.trades)
  {
    var window := Evict(s.trades, Cutoff(s, now));
    EvictValid(s.trades, Cutoff(s, now));
    assert StockPrice(s, now) == Quote(Stock(s.config, window), AveragePrice(window));
  }

  /** The per-share dividend a yield is taken against. */
  function Dividend(s: Stock): (d: real)
    requires ValidStock(s)
    ensures d >= 0.0
    ensures s.config.kind.Common? ==> d == s.config.lastDividend
    ensures s.config.kind.Preferred? ==>
      d * 100.0 == s.config.fixedDividendPercent.value * s.config.parValue
  {
    match FixedDividend(s)
    case None => s.config.lastDividend
    case Some(f) => f * s.config.parValue
  }

  /** `y` is the yield of dividend `d` at price `price`: y · price = d. */
  predicate IsYield(y: real, price: real, d: real) {
    y * price == d
  }

  /**
    Dividing a dividend by a non-zero price gives its yield at that price,
    which is not negative when neither is.
   */
  lemma QuotientIsYield(d: real, price: real)
    requires price != 0.0
    ensures IsYield(d / price, price, d)
    ensures d >= 0.0 && price > 0.0 ==> d / price >= 0.0
  {
  }

  /**
    `dividend_yield` at clock reading `now`: 0.0 when there is no price,
    otherwise the dividend per unit of price.
   */
  function DividendYield(s: Stock, now: real): (q: Quote)
    requires ValidStock(s)
    ensures q.stock == StockPrice(s, now).stock
    ensures StockPrice(s, now).value == 0.0 ==> q.value == 0.0
    ensures StockPrice(s, now).value > 0.0 ==> IsYield(q.value, StockPrice(s, now).value, Dividend(s))
    ensures q.value >= 0.0
  {
    var price := StockPrice(s, now);
    if price.value == 0.0 then Quote(price.stock, 0.0)
    else
      var d := Dividend(s);
      QuotientIsYield(d, price.value);
      Quote(price.stock, d / price.value)
  }

  /**
    `pe_ratio` at clock reading `now`: 0.0 when the yield is 0.0, otherwise
    the price per unit of yield.
   */
  function PeRatio(s: Stock, now: real): (q: Quote)
    requires ValidStock(s)
    ensures q.stock == StockPrice(s, now).stock
    ensures DividendYield(s, now).value == 0.0 ==> q.value == 0.0
    ensures DividendYield(s, now).value != 0.0 ==>
      q.value * DividendYield(s, now).value == StockPrice(s, now).value
  {
    var dy := DividendYield(s, now);
    if dy.value == 0.0 then Quote(dy.stock, 0.0)
    else
      var p := StockPrice(s, now).value;
      QuotientIsYield(p, dy.value);
      Quote(dy.stock, p / dy.value)
  }

  /**
    With a price and a dividend, the P/E ratio is price² / dividend; with
    either missing it is the 0.0 sentinel.
   */
  lemma PeRatioClosedForm(s: Stock, now: real)
    requires ValidStock(s)
    ensures var p := StockPrice(s, now).value;
      && (p > 0.0 && Dividend(s) > 0.0 ==> PeRatio(s, now).value * Dividend(s) == p * p)
      && (p == 0.0 || Dividend(s) == 0.0 ==> PeRatio(s, now).value == 0.0)
  {
    var p := StockPrice(s, now).value;
    var y := DividendYield(s, now).value;
    var d := Dividend(s);
    if p > 0.0 && d > 0.0 {
      assert y * p == d;
      assert y != 0.0;
      var pe := PeRatio(s, now).value;
      assert pe * y == p;
      calc {
        pe * d;
        pe * (y * p);
        (pe * y) * p;
        p * p;
      }
    } else if p > 0.0 {
      assert y * p == 0.0;
      assert y == 0.0;
    }
  }

  /**
    Reading a metric and then reading again at the same or a later clock
    gives what a single read at the later clock gives: the eviction a read
    leaves behind is invisible to later reads.
   */
  lemma StockPriceLaterRead(s: Stock, early: real, late: real)
    requires ValidStock(s)
    requires early <= late
    ensures StockPrice(StockPrice(s, early).stock, late) == StockPrice(s, late)
  {
    var first := StockPrice(s, early).stock;
    assert first.trades == Evict(s.trades, Cutoff(s, early));
    assert Cutoff(first, late) == Cutoff(s, late);
    EvictCompose(s.trades, Cutoff(s, early), Cutoff(s, late));
    assert StockPrice(first, late).stock.trades == StockPrice(s, late).stock.trades;
  }

  /** With every trade inside the window, nothing is evicted and the price is Σpq / Σq. */
  lemma StockPriceAllRecent(s: Stock, now: real)
    requires ValidStock(s)
    requires forall i :: 0 <= i < |s.trades| ==> s.trades[i].timestamp >= Cutoff(s, now)
    ensures StockPrice(s, now).stock == s
    ensures IsWeightedAverage(StockPrice(s, now).value, s.trades)
  {
    StockPriceWindow(s, now);
    RecentKeepsAll(s.trades, Cutoff(s, now));
    StockPriceIsAverage(s, now);
  }

  /** With every trade older than the window, the ledger is emptied and the price is 0.0. */
  lemma StockPriceAllStale(s: Stock, now: real)
    requires ValidStock(s)
    requires forall i :: 0 <= i < |s.trades| ==> s.trades[i].timestamp < Cutoff(s, now)
    ensures StockPrice(s, now).stock.trades == []
    ensures StockPrice(s, now).value == 0.0
  {
    StockPriceWindow(s, now);
  }

  /**
    The timestamp check of `record_trade` compares against the last trade
    still in the ledger, not the last one ever recorded: once a read has
    evicted every trade, a timestamp earlier than the evicted ones passes,
    although the same trade is refused before the read.
   */
  lemma ReadForgetsLastTrade(s: Stock, now: real, timestamp: real, quantity: int, buySell: string,
                             price: real)
    requires ValidStock(s)
    requires |s.trades| > 0 && s.trades[|s.trades| - 1].timestamp < Cutoff(s, now)
    ensures timestamp < s.trades[|s.trades| - 1].timestamp ==>
      RecordTrade(s, timestamp, quantity, buySell, price).Failure?
    ensures RecordTrade(StockPrice(s, now).stock, timestamp, quantity, buySell, price).Success?
        <==> timestamp >= 0.0 && quantity >= 1 && (buySell == BuyTag || buySell == SellTag) && price > 0.0
  {
    var last := |s.trades| - 1;
    forall i | 0 <= i < |s.trades|
      ensures s.trades[i].timestamp < Cutoff(s, now)
    {
      if i < last {
        assert s.trades[i].timestamp <= s.trades[last].timestamp;
      }
    }
    StockPriceAllStale(s, now);
  }

  /** The price lies between the lowest and highest price still inside the window. */
  lemma StockPriceBetween(s: Stock, now: real, lo: real, hi: real)
    requires ValidStock(s)
    requires StockPrice(s, now).value != 0.0
    requires forall i :: 0 <= i < |s.trades| && s.trades[i].timestamp >= Cutoff(s, now) ==>
      lo <= s.trades[i].price <= hi
    ensures lo <= StockPrice(s, now).value <= hi
  {
    var w := StockPrice(s, now).stock.trades;
    StockPriceWindow(s, now);
    var k := |s.trades| - |w|;
    forall i | 0 <= i < |w|
      ensures WellFormed(w[i]) && lo <= w[i].price <= hi
    {
      assert w[i] == s.trades[k + i];
    }
    AveragePriceBetween(w, lo, hi);
  }

  /**
    `stock_price` ignores the buy/sell side: two stocks whose ledgers differ
    only in sides are priced alike.
   */
  lemma StockPriceIgnoresSide(s: Stock, u: Stock, now: real)
    requires ValidStock(s) && ValidStock(u)
    requires u.config == s.config
    requires SameButSide(s.trades, u.trades)
    ensures StockPrice(u, now).value == StockPrice(s, now).value
  {
    var ws := StockPrice(s, now).stock.trades;
    var wu := StockPrice(u, now).stock.trades;
    EvictIgnoresSide(s.trades, u.trades, Cutoff(s, now));
    AveragePriceIgnoresSide(ws, wu);
  }

  /** The reason an as-written read raises. */
  datatype Fault = ZeroDivisionError

  /**
    `dividend_yield` as the source writes it: `stock_price` is read once for
    the zero test at `first` and again for the division at `second`, each
    read sampling the clock and evicting anew.
   */
  function DividendYieldAsWritten(s: Stock, first: real, second: real): (r: Result<Quote, Fault>)
    requires ValidStock(s)
    ensures r.Failure? <==>
      StockPrice(s, first).value != 0.0 && StockPrice(StockPrice(s, first).stock, second).value == 0.0
    ensures r.Success? && StockPrice(s, first).value == 0.0 ==> r.value.value == 0.0
    ensures r.Success? && StockPrice(s, first).value != 0.0 ==>
      IsYield(r.value.value, StockPrice(StockPrice(s, first).stock, second).value, Dividend(s))
  {
    var test := StockPrice(s, first);
    if test.value == 0.0 then Success(Quote(test.stock, 0.0))
    else
      var divisor := StockPrice(test.stock, second);
      if divisor.value == 0.0 then Failure(ZeroDivisionError)
      else
        var d := Dividend(s);
        QuotientIsYield(d, divisor.value);
        Success(Quote(divisor.stock, d / divisor.value))
  }

  /**
    A trade that leaves the window between the two reads turns the sentinel
    path into a division by zero. Take a stock whose only trade is at time
    t, read first at t + decay (the last instant the trade is inside the
    window) and again at any later instant: the first read sees a price,
    the second sees none. One instance is POP with one trade at 0.0, the
    default 900-second window, reads at 900.0 and 900.5.
   */
  lemma DividendYieldAsWrittenDividesByZero(s: Stock, first: real, second: real)
    requires ValidStock(s)
    requires |s.trades| == 1
    requires first == s.trades[0].timestamp + s.config.decay
    requires first < second
    ensures DividendYieldAsWritten(s, first, second) == Failure(ZeroDivisionError)
  {
    OneTradeInWindow(s, first);
    OneTradeStale(s, second);
    assert StockPrice(StockPrice(s, first).stock, second).value == 0.0;
  }

  /** Read at the last instant its only trade is inside the window, a stock keeps it and has a price. */
  lemma OneTradeInWindow(s: Stock, first: real)
    requires ValidStock(s)
    requires |s.trades| == 1
    requires first == s.trades[0].timestamp + s.config.decay
    ensures StockPrice(s, first).stock == s
    ensures StockPrice(s, first).value != 0.0
  {
    assert Cutoff(s, first) == s.trades[0].timestamp;
    StockPriceAllRecent(s, first);
    assert StockPrice(s, first).stock.trades != [];
  }

  /** Read after its only trade has left the window, a stock has no price. */
  lemma OneTradeStale(s: Stock, second: real)
    requires ValidStock(s)
    requires |s.trades| == 1
    requires s.trades[0].timestamp + s.config.decay < second
    ensures StockPrice(s, second).value == 0.0
  {
    StockPriceAllStale(s, second);
  }

  /**
    With a single clock reading the as-written yield never fails and
    agrees with `DividendYield`, which samples the clock once.
   */
  lemma DividendYieldOneClock(s: Stock, now: real)
    requires ValidStock(s)
    ensures DividendYieldAsWritten(s, now, now) == Success(DividendYield(s, now))
  {
    StockPriceLaterRead(s, now, now);
  }
}

=== FILE: stocks.dfy ===
/**
  The `Stock` aggregate: its validated configuration, its derived
  fixed-dividend accessors and the validated append of a trade to its ledger.
 */
module Stocks {
  import opened Wrappers
  import opened Validation
  import opened Ledger

  datatype StockType = Common | Preferred

  const CommonTag: string := "common"
  const PreferredTag: string := "preferred"

  /** Default width of the rolling price window: 15 minutes, in seconds. */
  const DefaultDecay: real := 900.0

  /** The tag the source stores for a stock type. */
  function TypeTag(kind: StockType): string {
    match kind
    case Common => CommonTag
    case Preferred => PreferredTag
  }

  /** Membership test against the source's two stock-type tags, case-sensitive. */
  function ParseStockType(tag: string): (r: Option<StockType>)
    ensures r.Some? <==> tag == CommonTag || tag == PreferredTag
    ensures r.Some? ==> TypeTag(r.value) == tag
  {
    if tag == CommonTag then Some(Common)
    else if tag == PreferredTag then Some(Preferred)
    else None
  }

  /**
    What a stock is configured with, fixed at construction: the five
    validated fields and the window width. `fixedDividendPercent` is the
    stored percentage, absent for common stocks.
   */
  datatype Config = Config(
    symbol: string,
    kind: StockType,
    lastDividend: real,
    fixedDividendPercent: Option<real>,
    parValue: real,
    decay: real)

  /** A stock: its fixed configuration and its trade ledger. */
  datatype Stock = Stock(config: Config, trades: seq<Trade>)

  /** Exactly three characters, each in A–Z. */
  predicate IsSymbol(s: string) {
    |s| == 3 && forall i :: 0 <= i < |s| ==> 'A' <= s[i] <= 'Z'
  }

  predicate PercentInRange(p: real) {
    0.0 <= p <= 100.0
  }

  /** What construction guarantees of a configuration. */
  predicate ValidConfig(c: Config) {
    && IsSymbol(c.symbol)
    && c.lastDividend >= 0.0
    && c.parValue >= 0.0
    && (c.kind.Preferred? <==> c.fixedDividendPercent.Some?)
    && (c.fixedDividendPercent.Some? ==> PercentInRange(c.fixedDividendPercent.value))
  }

  /** The invariant every constructed stock keeps. */
  predicate ValidStock(s: Stock) {
    ValidConfig(s.config) && ValidLedger(s.trades)
  }

  /** When the five configuration inputs describe a stock the source accepts. */
  predicate ConfigAccepted(symbol: string, stockType: string, lastDividend: real,
                           fixedDividend: Option<real>, parValue: real)
  {
    && IsSymbol(symbol)
    && (stockType == CommonTag || stockType == PreferredTag)
    && lastDividend >= 0.0
    && parValue >= 0.0
    && (stockType == PreferredTag ==> fixedDividend.Some? && PercentInRange(fixedDividend.value))
  }

  /**
    The failures of the three amount fields, in check order: last dividend,
    fixed dividend (checked for a preferred stock only), par value.
   */
  function AmountErrors(stockType: string, lastDividend: real, fixedDividend: Option<real>,
                        parValue: real): (errs: seq<FieldError>)
    ensures InFieldOrder(errs)
    ensures forall x :: x in errs ==> 2 <= Rank(x) <= 4
    ensures InvalidLastDividend in errs <==> lastDividend < 0.0
    ensures InvalidFixedDividend in errs <==>
      stockType == PreferredTag && fixedDividend.Some? && !PercentInRange(fixedDividend.value)
    ensures InvalidParValue in errs <==> parValue < 0.0
  {
    var fixedOutOfRange :=
      stockType == PreferredTag && fixedDividend.Some? && !PercentInRange(fixedDividend.value);
    Report(lastDividend < 0.0, InvalidLastDividend,
    Report(fixedOutOfRange, InvalidFixedDividend,
    Report(parValue < 0.0, InvalidParValue, [])))
  }

  /**
    Every configuration field that fails its check, one entry per field, in
    the order the fields are checked. The fixed dividend is only checked
    for a preferred stock; for any other type tag it is discarded.
   */
  function StockErrors(symbol: string, stockType: string, lastDividend: real,
                       fixedDividend: Option<real>, parValue: real): (errs: seq<FieldError>)
    ensures InFieldOrder(errs)
    ensures InvalidSymbol(symbol) in errs <==> !IsSymbol(symbol)
    ensures InvalidStockType in errs <==> stockType != CommonTag && stockType != PreferredTag
    ensures InvalidLastDividend in errs <==> lastDividend < 0.0
    ensures InvalidFixedDividend in errs <==>
      stockType == PreferredTag && fixedDividend.Some? && !PercentInRange(fixedDividend.value)
    ensures InvalidParValue in errs <==> parValue < 0.0
  {
    var amounts := AmountErrors(stockType, lastDividend, fixedDividend, parValue);
    var fromType := Report(ParseStockType(stockType).None?, InvalidStockType, amounts);
    Report(!IsSymbol(symbol), InvalidSymbol(symbol), fromType)
  }

  /** Construction reports configuration fields only, and names the symbol it was given. */
  lemma StockErrorsOnlyConfigFields(symbol: string, stockType: string, lastDividend: real,
                                    fixedDividend: Option<real>, parValue: real)
    ensures forall e :: e in StockErrors(symbol, stockType, lastDividend, fixedDividend, parValue) ==>
      Rank(e) <= 4 && (e.InvalidSymbol? ==> e.symbol == symbol)
  {
    var errs := StockErrors(symbol, stockType, lastDividend, fixedDividend, parValue);
    forall e | e in errs
      ensures Rank(e) <= 4 && (e.InvalidSymbol? ==> e.symbol == symbol)
    {
      assert e == InvalidSymbol(symbol) || e == InvalidStockType || e == InvalidLastDividend
          || e == InvalidFixedDividend || e == InvalidParValue;
    }
  }

  /**
    `Stock(symbol, stock_type, last_dividend, fixed_dividend, par_value,
    trades_cache_decay_time)`. A preferred stock whose fixed dividend is
    missing fails with `TypeError` before any other field is reported;
    otherwise every failing field is reported in one `ValidationError`.
   */
  function NewStock(symbol: string, stockType: string, lastDividend: real,
                    fixedDividend: Option<real>, parValue: real, decay: real := DefaultDecay)
    : (r: Result<Stock, Error>)
    ensures r.Success? <==> ConfigAccepted(symbol, stockType, lastDividend, fixedDividend, parValue)
    ensures r.Success? ==> && ValidStock(r.value)
                           && r.value.config.symbol == symbol
                           && TypeTag(r.value.config.kind) == stockType
                           && r.value.config.lastDividend == lastDividend
                           && r.value.config.parValue == parValue
                           && r.value.config.decay == decay
                           && r.value.trades == []
    ensures r.Success? && stockType == PreferredTag ==> r.value.config.fixedDividendPercent == fixedDividend
    ensures r.Success? && stockType == CommonTag ==> r.value.config.fixedDividendPercent == None
    ensures r.Failure? ==> (r.error == TypeError <==> stockType == PreferredTag && fixedDividend.None?)
    ensures r.Failure? && r.error.ValidationError? ==>
      r.error.failures == StockErrors(symbol, stockType, lastDividend, fixedDividend, parValue)
      && |r.error.failures| > 0
  {
    if stockType == PreferredTag && fixedDividend.None? then
      Failure(TypeError)
    else
      var errs := StockErrors(symbol, stockType, lastDividend, fixedDividend, parValue);
      if |errs| > 0 then
        Failure(ValidationError(errs))
      else
        var kind := ParseStockType(stockType).value;
        var percent := if kind == Preferred then fixedDividend else None;
        Success(Stock(Config(symbol, kind, lastDividend, percent, parValue, decay), []))
  }

  /** A stock constructed without a window width gets the 15-minute default. */
  lemma DefaultWindow(symbol: string, stockType: string, lastDividend: real,
                      fixedDividend: Option<real>, parValue: real)
    requires ConfigAccepted(symbol, stockType, lastDividend, fixedDividend, parValue)
    ensures NewStock(symbol, stockType, lastDividend, fixedDividend, parValue).Success?
    ensures NewStock(symbol, stockType, lastDividend, fixedDividend, parValue).value.config.decay == 900.0
  {
  }

  /** `stock_type`: the stored tag. */
  function StockTypeTag(s: Stock): string {
    TypeTag(s.config.kind)
  }

  /**
    `fixed_dividend`: the stored percentage as a fraction, absent for a
    common stock. (The source writes `p and p / 100.0`, which yields the
    stored `0.0` itself for a zero percentage: the same number.)
   */
  function FixedDividend(s: Stock): (r: Option<real>)
    requires ValidStock(s)
    ensures r.Some? <==> s.config.kind.Preferred?
    ensures r.Some? ==> r.value * 100.0 == s.config.fixedDividendPercent.value
    ensures r.Some? ==> 0.0 <= r.value <= 1.0
  {
    match s.config.fixedDividendPercent
    case None => None
    case Some(p) => Some(p / 100.0)
  }

  /**
    Reading back the fields of a valid stock and constructing again yields
    the same stock with an empty ledger.
   */
  lemma RebuildRoundTrip(s: Stock)
    requires ValidStock(s)
    ensures var c := s.config;
      NewStock(c.symbol, StockTypeTag(s), c.lastDividend, c.fixedDividendPercent, c.parValue, c.decay)
      == Success(Stock(c, []))
  {
  }

  /** For a common stock the fixed-dividend argument never matters, not even for errors. */
  lemma CommonIgnoresFixedDividend(symbol: string, lastDividend: real, fixedDividend: Option<real>,
                                   parValue: real, decay: real)
    ensures NewStock(symbol, CommonTag, lastDividend, fixedDividend, parValue, decay)
         == NewStock(symbol, CommonTag, lastDividend, None, parValue, decay)
  {
  }

  /** The timestamp of the last trade still in the ledger, if any. */
  function LastTimestamp(ts: seq<Trade>): Option<real> {
    if |ts| == 0 then None else Some(ts[|ts| - 1].timestamp)
  }

  /**
    Every trade field that fails its check, in the order they are checked.
    A negative timestamp and one earlier than the last trade still in the
    ledger share one failure.
   */
  function TradeErrors(trades: seq<Trade>, timestamp: real, quantity: int, buySell: string,
                       price: real): (errs: seq<FieldError>)
    ensures InFieldOrder(errs)
    ensures InvalidTimestamp in errs <==>
      timestamp < 0.0 || (|trades| > 0 && trades[|trades| - 1].timestamp > timestamp)
    ensures InvalidQuantity in errs <==> quantity < 1
    ensures InvalidBuySell in errs <==> buySell != BuyTag && buySell != SellTag
    ensures InvalidPrice in errs <==> price <= 0.0
    ensures forall e :: e in errs ==> 5 <= Rank(e)
  {
    var last := LastTimestamp(trades);
    Report(timestamp < 0.0 || (last.Some? && last.value > timestamp), InvalidTimestamp,
    Report(quantity < 1, InvalidQuantity,
    Report(ParseSide(buySell).None?, InvalidBuySell,
    Report(price <= 0.0, InvalidPrice, []))))
  }

  /**
    `record_trade`: validates the four trade fields against the ledger and,
    when all pass, appends exactly one trade at the tail. On failure the
    stock is returned unchanged by the caller and the error lists every
    offending field.
   */
  function RecordTrade(s: Stock, timestamp: real, quantity: int, buySell: string,
                       price: real): (r: Result<Stock, Error>)
    ensures r.Success? <==>
      && timestamp >= 0.0
      && (|s.trades| == 0 || s.trades[|s.trades| - 1].timestamp <= timestamp)
      && quantity >= 1
      && (buySell == BuyTag || buySell == SellTag)
      && price > 0.0
    ensures r.Success? ==>
      && r.value.config == s.config
      && |r.value.trades| == |s.trades| + 1
      && r.value.trades[..|s.trades|] == s.trades
      && var t := r.value.trades[|s.trades|];
         t.timestamp == timestamp && t.quantity == quantity && SideTag(t.side) == buySell && t.price == price
    ensures r.Failure? ==>
      && r.error.ValidationError?
      && |r.error.failures| > 0
      && r.error.failures == TradeErrors(s.trades, timestamp, quantity, buySell, price)
    ensures r.Success? && ValidStock(s) ==> ValidStock(r.value)
  {
    var errs := TradeErrors(s.trades, timestamp, quantity, buySell, price);
    if |errs| > 0 then
      Failure(ValidationError(errs))
    else
      var t := Trade(timestamp, quantity, ParseSide(buySell).value, price);
      assert WellFormed(t);
      Success(s.(trades := s.trades + [t]))
  }
}

=== FILE: validation.dfy ===
/**
  Field-level validation failures and the text of the `ValidationError`
  they are reported through. Construction and trade recording collect one
  failure per offending field and join their descriptions with newlines.
 */
module Validation {

  /** One offending field, in the order the source checks them. */
  datatype FieldError =
    | InvalidSymbol(symbol: string)
    | InvalidStockType
    | InvalidLastDividend
    | InvalidFixedDividend
    | InvalidParValue
    | InvalidTimestamp
    | InvalidQuantity
    | InvalidBuySell
    | InvalidPrice

  /** The exceptions raised by construction and trade recording. */
  datatype Error =
    | ValidationError(failures: seq<FieldError>)
      /** `float(None)` on a preferred stock's missing fixed dividend. */
    | TypeError

  /** Position of a field in the order the source validates it. */
  function Rank(e: FieldError): nat {
    match e
    case InvalidSymbol(_) => 0
    case InvalidStockType => 1
    case InvalidLastDividend => 2
    case InvalidFixedDividend => 3
    case InvalidParValue => 4
    case InvalidTimestamp => 5
    case InvalidQuantity => 6
    case InvalidBuySell => 7
    case InvalidPrice => 8
  }

  /** Failures listed strictly in validation order: one line per field, never twice. */
  predicate InFieldOrder(errs: seq<FieldError>) {
    forall i, j :: 0 <= i < j < |errs| ==> Rank(errs[i]) < Rank(errs[j])
  }

  /**
    `rest` with the failure `e` in front when `failed` holds: how the source
    accumulates one failure per field, field by field.
   */
  function Report(failed: bool, e: FieldError, rest: seq<FieldError>): (errs: seq<FieldError>)
    requires InFieldOrder(rest)
    requires forall x :: x in rest ==> Rank(e) < Rank(x)
    ensures InFieldOrder(errs)
    ensures forall x :: x in errs <==> (failed && x == e) || x in rest
  {
    if failed then [e] + rest else rest
  }

  /**
    The human-readable line for one failure. The literals are kept short so
    that the verifier can see, piece by piece, that no line holds a newline.
   */
  function Describe(e: FieldError): string {
    match e
    case InvalidSymbol(s) => "\"" + s + "\" is invalid symbol"
    case InvalidStockType => "stock_type should be " + "one of (common, preferred)"
    case InvalidLastDividend => "last_dividend should be " + "a non-negative number"
    case InvalidFixedDividend =>
      "fixed_dividend should be " + "a number in the " + "interval [0, 100]"
    case InvalidParValue => "par_value should be " + "a non-negative number"
    case InvalidTimestamp =>
      "timestamp should be " + "a non-negative number " + "of second since epoch. "
      + "timestamp cannot be " + "less than timestamp " + "of last recorded trade"
    case InvalidQuantity => "quantity should be " + "a positive integer number"
    case InvalidBuySell => "buy_sell should be " + "one of (buy, sell)"
    case InvalidPrice => "price should be " + "a positive number"
  }

  /** Python's `'\n'.join(lines)`. */
  function Join(lines: seq<string>): string {
    if |lines| == 0 then ""
    else if |lines| == 1 then lines[0]
    else lines[0] + "\n" + Join(lines[1..])
  }

  /** Index of the first newline in `s`, or `|s|` when there is none. */
  function FirstNewline(s: string): (i: nat)
    ensures i <= |s|
    ensures forall k :: 0 <= k < i ==> s[k] != '\n'
    ensures i < |s| ==> s[i] == '\n'
    decreases |s|
  {
    if |s| == 0 then 0
    else if s[0] == '\n' then 0
    else 1 + FirstNewline(s[1..])
  }

  /** Python's `s.split('\n')`: always at least one piece. */
  function Split(s: string): (pieces: seq<string>)
    ensures |pieces| >= 1
    decreases |s|
  {
    var i := FirstNewline(s);
    if i == |s| then [s] else [s[..i]] + Split(s[i + 1..])
  }

  /** The descriptions of a failure list, one per failure. */
  function Lines(errs: seq<FieldError>): (lines: seq<string>)
    ensures |lines| == |errs|
    ensures forall i :: 0 <= i < |errs| ==> lines[i] == Describe(errs[i])
  {
    seq(|errs|, i requires 0 <= i < |errs| => Describe(errs[i]))
  }

  /** The text carried by `ValidationError`. */
  function Message(errs: seq<FieldError>): string {
    Join(Lines(errs))
  }

  /** The first newline of `a + "\n" + b` is the one just after `a`. */
  lemma {:induction false} FirstNewlineAfter(a: string, b: string)
    requires '\n' !in a
    ensures FirstNewline(a + "\n" + b) == |a|
    decreases |a|
  {
    if |a| > 0 {
      assert a[0] in a;
      assert (a + "\n" + b)[1..] == a[1..] + "\n" + b;
      assert forall c :: c in a[1..] ==> c in a;
      FirstNewlineAfter(a[1..], b);
    }
  }

  /** A string without newlines has none to find. */
  lemma {:induction false} FirstNewlineAbsent(a: string)
    requires '\n' !in a
    ensures FirstNewline(a) == |a|
    decreases |a|
  {
    if |a| > 0 {
      assert a[0] in a;
      assert forall c :: c in a[1..] ==> c in a;
      FirstNewlineAbsent(a[1..]);
    }
  }

  /** Splitting a joined message on newlines recovers its lines. */
  lemma {:induction false} SplitJoin(lines: seq<string>)
    requires |lines| >= 1
    requires forall i :: 0 <= i < |lines| ==> '\n' !in lines[i]
    ensures Split(Join(lines)) == lines
    decreases |lines|
  {
    if |lines| == 1 {
      FirstNewlineAbsent(lines[0]);
    } else {
      var rest := Join(lines[1..]);
      var s := lines[0] + "\n" + rest;
      FirstNewlineAfter(lines[0], rest);
      assert s[..|lines[0]|] == lines[0];
      assert s[|lines[0]| + 1..] == rest;
      SplitJoin(lines[1..]);
      assert lines == [lines[0]] + lines[1..];
    }
  }

  /** No failure line contains a newline unless the offending symbol does. */
  lemma DescribeSingleLine(e: FieldError)
    requires e.InvalidSymbol? ==> '\n' !in e.symbol
    ensures '\n' !in Describe(e)
  {
    if Rank(e) < 2 {
      SymbolLineSingle(e);
    } else if Rank(e) < 5 {
      AmountLineSingle(e);
    } else if Rank(e) == 5 {
      TimestampLineSingle(e);
    } else {
      TradeLineSingle(e);
    }
  }

  lemma SymbolLineSingle(e: FieldError)
    requires Rank(e) < 2
    requires e.InvalidSymbol? ==> '\n' !in e.symbol
    ensures '\n' !in Describe(e)
  {
    match e
    case InvalidSymbol(s) =>
      assert '\n' !in "\"" && '\n' !in "\" is invalid symbol";
    case InvalidStockType =>
      assert '\n' !in "stock_type should be " && '\n' !in "one of (common, preferred)";
  }

  lemma AmountLineSingle(e: FieldError)
    requires 2 <= Rank(e) < 5
    ensures '\n' !in Describe(e)
  {
    match e
    case InvalidLastDividend =>
      assert '\n' !in "last_dividend should be " && '\n' !in "a non-negative number";
    case InvalidFixedDividend =>
      assert '\n' !in "fixed_dividend should be " && '\n' !in "a number in the ";
      assert '\n' !in "interval [0, 100]";
    case InvalidParValue =>
      assert '\n' !in "par_value should be " && '\n' !in "a non-negative number";
  }

  lemma TimestampLineSingle(e: FieldError)
    requires Rank(e) == 5
    ensures '\n' !in Describe(e)
  {
    match e
    case InvalidTimestamp =>
      assert '\n' !in "timestamp should be " && '\n' !in "a non-negative number ";
      assert '\n' !in "of second since epoch. " && '\n' !in "timestamp cannot be ";
      assert '\n' !in "less than timestamp " && '\n' !in "of last recorded trade";
  }

  lemma TradeLineSingle(e: FieldError)
    requires Rank(e) > 5
    ensures '\n' !in Describe(e)
  {
    match e
    case InvalidQuantity =>
      assert '\n' !in "quantity should be " && '\n' !in "a positive integer number";
    case InvalidBuySell =>
      assert '\n' !in "buy_sell should be " && '\n' !in "one of (buy, sell)";
    case InvalidPrice =>
      assert '\n' !in "price should be " && '\n' !in "a positive number";
  }

  /**
    A `ValidationError` message carries exactly one line per failing field,
    in validation order, as long as the offending symbol is a single line.
   */
  lemma {:induction false} MessageHasOneLinePerFailure(errs: seq<FieldError>)
    requires |errs| >= 1
    requires forall i :: 0 <= i < |errs| && errs[i].InvalidSymbol? ==> '\n' !in errs[i].symbol
    ensures Split(Message(errs)) == Lines(errs)
  {
    forall i | 0 <= i < |errs|
      ensures '\n' !in Lines(errs)[i]
    {
      DescribeSingleLine(errs[i]);
    }
    SplitJoin(Lines(errs));
  }
}

=== FILE: wrappers.dfy ===
/** Failure-carrying datatypes used in place of the source's exceptions and None. */
module Wrappers {

  /** A value that may be absent (the source's `None`). */
  datatype Option<+T> = None | Some(value: T)

  /** Either a computed value or the error the source would raise. */
  datatype Result<+T, +E> = Success(value: T) | Failure(error: E)
}
